=== FILE: README.md ===
# Encrypted columns for Drizzle: a Dafny model of the field codec

The repository stores chosen database columns encrypted. Each such column is
declared with `encrypted(name, type)`, which builds a Drizzle custom column with
storage type `text`. When a row is written, its `toDriver` hook does two things:
- it renders the value as a string (`dataToString`);
- it encrypts that string with AES-256-GCM (`encryptSync`).

The key is the SHA-256 digest of the `ENCRYPTION_KEY` environment variable, and
every encryption draws a fresh 12-byte IV. The stored text is the base64 encoding
of IV (12 bytes) ‖ authentication tag (16 bytes) ‖ ciphertext.

When a row is read, `fromDriver` runs the same steps in reverse:
- `decryptSync` slices the blob at bytes 12 and 28 and checks the tag;
- `stringToData` parses the plaintext back into the column's type.

Each hook wraps any failure in a message that names the column.

The model is made of seven modules:

- `Wrappers`: `Option` and `Result` (the `Err` message stands for a thrown
  `Error`'s message).
- `Decimal`: decimal digit strings, as `toString` writes integers and `parseInt`
  reads them.
- `Gcm`: Galois/Counter Mode, written out as NIST SP 800-38D sections 6 and 7
  define it. The AES-256 block cipher is a parameter. Decryption behaves as
  Node's `Decipher` does:
  - an empty IV is refused;
  - only tag lengths 4, 8 and 12 to 16 are accepted;
  - a shorter tag is compared with the leading bytes of the computed tag.
- `Platform`: the primitives the cipher layer calls but does not define
  (SHA-256, AES-256, UTF-8 and base64). They are fields of a `Crypto` record,
  and the laws the proofs rely on form the predicate `Lawful`.
- `Cipher`: `getEncryptionKey`, `encryptSync` and `decryptSync`. The blob is
  sliced with `Buffer.subarray`'s clamping semantics.
- `Serializer`: `dataToString` and `stringToData` over the seven column types.
  - Boolean rendering and the `:::::` framing of json values (with JavaScript
    `String.prototype.indexOf` and `split` semantics) are modelled exactly.
  - Integer rendering and `parseInt` are modelled on mathematical integers.
    They agree with JavaScript numbers up to 2^53 in magnitude.
  - `Number.prototype.toString` on the values of number columns, `parseFloat`,
    `Date` and superjson are fields of a `Libraries` record. The date law the
    round trip needs for every input is `LibrariesLawful`. Whether superjson
    carries a given json value is a property of that value
    (`SuperjsonCarries`).
- `Columns`: the column itself, `dataType`, `toDriver` and `fromDriver`.

The code has no length check before slicing, and the model follows the code.
A stored text that decodes to fewer than 28 bytes is therefore not rejected for
its length:
- Its tag view is whatever lies after byte 12. GCM refuses that view when it
  has fewer than 4 bytes, or a length such as 5 to 7 or 9 to 11.
- A blob of 12 + 4, 12 + 8 or 12 + 12..15 bytes holding a valid truncated tag
  for the empty plaintext decrypts to the empty string (`ShortBlobAccepted`).

Likewise, any text other than `"true"` in a boolean column reads as `false`, not
as an error.

## Model

| member | source | states |
|---|---|---|
| Gcm.Inc32 | src/server/db/encrypt/functions.ts:19-22 | the counter increment keeps the first 12 bytes of the counter block and replaces the last 4, read big-endian, by their value plus one modulo 2^32 |
| Gcm.BigEndianRoundTrip | src/server/db/encrypt/functions.ts:19-22 | reading back the big-endian bytes of a number gives the number modulo 256^width |
| Gcm.Gctr | src/server/db/encrypt/functions.ts:21-22 | counter-mode output is exactly as long as its input |
| Gcm.Seal | src/server/db/encrypt/functions.ts:19-24 | AES-256-GCM encryption keeps the plaintext length and yields a 16-byte tag |
| Gcm.Open | src/server/db/encrypt/functions.ts:47-51 | decryption succeeds if and only if the IV is non-empty, the tag length is one GCM allows and the tag equals the leading bytes of the tag computed over the ciphertext; otherwise it fails with one of Node's three messages |
| Gcm.GctrInvolution | src/server/db/encrypt/functions.ts:50-51 | counter mode applied twice with the same key and counter block is the identity |
| Gcm.OpenSeal | src/server/db/encrypt/functions.ts:47-51 | opening a sealed message with its key, IV and tag (or an allowed leading part of the tag) returns the plaintext |
| Gcm.OpenAuthenticated | src/server/db/encrypt/functions.ts:48-51 | whatever decryption returns is the plaintext whose encryption under this key and IV is exactly the given ciphertext with a matching tag |
| Decimal.Digits | src/server/db/encrypt/columns.ts:32 | an integer renders as at least one decimal digit, with a leading zero only for zero |
| Decimal.ValueOfDigits | src/server/db/encrypt/columns.ts:54 | reading back the rendered digits of a number gives the number |
| Decimal.DigitsInjective | src/server/db/encrypt/columns.ts:32 | distinct numbers render differently |
| Platform.LawfulPlatformExists | src/server/db/encrypt/functions.ts:21-31 | the encoding laws the round-trip proofs rely on can all hold together |
| Platform.SmallPlatformLawful | src/server/db/encrypt/functions.ts:21-31 | a concrete platform, with three-byte characters and bit-string base64, meets the encoding laws |
| Cipher.GetEncryptionKey | src/server/db/encrypt/functions.ts:5-11 | fails, with the missing-key message, exactly when the variable is unset or empty; otherwise the key is SHA-256 of the secret's UTF-8 bytes |
| Cipher.Unframe | src/server/db/encrypt/functions.ts:43-45 | the clamped slices at 0, 12 and 28 cover the whole blob in order, with an IV view of min(n, 12) bytes and a tag view of max(0, min(n - 12, 16)) bytes |
| Cipher.EncryptSync | src/server/db/encrypt/functions.ts:13-35 | fails exactly when the key is missing, with the message "Encryption failed: " followed by the key error |
| Cipher.DecryptSync | src/server/db/encrypt/functions.ts:37-57 | every failure carries the "Decryption failed: " prefix; a missing key gives exactly that prefix followed by the key error, and a GCM failure exactly that prefix followed by GCM's message |
| Cipher.UnframeFrame | src/server/db/encrypt/functions.ts:25-29 | the blob is 28 bytes longer than the ciphertext, and slicing undoes the concatenation |
| Cipher.UnframeShort | src/server/db/encrypt/functions.ts:43-45 | a blob shorter than 28 bytes yields a short tag view and an empty ciphertext view |
| Cipher.EncryptSyncLayout | src/server/db/encrypt/functions.ts:25-31 | with a key, the stored text decodes to IV ‖ 16-byte tag ‖ ciphertext as long as the UTF-8 plaintext |
| Cipher.DecryptEncrypt | src/server/db/encrypt/functions.ts:13-57 | decrypting what was encrypted under the same key gives back the plaintext |
| Cipher.DistinctIvsGiveDistinctBlobs | src/server/db/encrypt/functions.ts:17 | the same plaintext under two different IVs is stored as two different texts |
| Cipher.DecryptAuthenticated | src/server/db/encrypt/functions.ts:48-53 | a successful decryption implies a key was configured and the blob's tag authenticates its ciphertext under that key and the blob's IV |
| Cipher.ShortBlobRejected | src/server/db/encrypt/functions.ts:43-51 | a blob that decodes to fewer than 16 bytes always fails to decrypt |
| Cipher.ShortBlobAccepted | src/server/db/encrypt/functions.ts:43-51 | a blob shorter than 28 bytes made of an IV and a valid truncated tag for the empty plaintext decrypts successfully |
| Cipher.DecryptSyncOfOpen | src/server/db/encrypt/functions.ts:47-53 | when GCM opening of the sliced blob succeeds, decryption returns the UTF-8 reading of the opened bytes |
| Serializer.IntegerToString | src/server/db/encrypt/columns.ts:30-32 | NaN renders as "NaN", a non-negative integer as canonical digits and a negative one as "-" followed by canonical digits |
| Serializer.TrimStart | src/server/db/encrypt/columns.ts:54 | the result is the suffix of the text left after a prefix made only of white space, and it does not start with white space |
| Serializer.DigitPrefix | src/server/db/encrypt/columns.ts:54 | the result is the longest all-digit prefix of the text |
| Serializer.ParseInt | src/server/db/encrypt/columns.ts:54 | NaN exactly when no digit follows the white space and the optional sign; a negative result needs a minus sign after the white space (ParseIntDecimal and ParseIntNoDigits give the value for every text) |
| Serializer.ParseIntSkipsWhiteSpace | src/server/db/encrypt/columns.ts:54 | leading white space does not change what parseInt reads |
| Serializer.ParseIntSigned | src/server/db/encrypt/columns.ts:54 | an optional sign followed by digits reads as the signed value of those digits, whatever follows the digits |
| Serializer.ParseIntDecimal | src/server/db/encrypt/columns.ts:54 | white space, an optional sign and digits read as the signed value of the digits |
| Serializer.ParseIntNoDigits | src/server/db/encrypt/columns.ts:54 | text with no digit after the white space and the optional sign reads as NaN, not as an error; with `ParseIntDecimal` this covers every text |
| Serializer.ParseIntSignedNoDigits | src/server/db/encrypt/columns.ts:54 | an optional sign not followed by a digit reads as NaN |
| Serializer.IntegerRoundTrip | src/server/db/encrypt/columns.ts:30-54 | parseInt of the rendered integer gives the integer back, NaN included |
| Serializer.BooleanToString | src/server/db/encrypt/columns.ts:33-34 | a boolean renders as "true" exactly when it is true, and as "false" otherwise |
| Serializer.ParseBoolean | src/server/db/encrypt/columns.ts:58 | a text reads as true exactly when it is the rendering of true; anything else reads as false |
| Serializer.BooleanRoundTrip | src/server/db/encrypt/columns.ts:33-58 | reading back a rendered boolean gives it back, and only the text "true" reads as true |
| Serializer.IndexOf | src/server/db/encrypt/columns.ts:63 | the separator search finds the first occurrence at or after the start position, or reports that there is none |
| Serializer.Split | src/server/db/encrypt/columns.ts:63 | at least one piece, and no piece contains the separator |
| Serializer.SplitJoin | src/server/db/encrypt/columns.ts:63 | the pieces joined back with the separator give the text |
| Serializer.SplitCutsAtFirst | src/server/db/encrypt/columns.ts:63 | the text is one piece exactly when it has no separator; otherwise the first cut is at the leftmost occurrence and the rest is split the same way |
| Serializer.FirstCut | src/server/db/encrypt/columns.ts:63 | the first piece ends at the first occurrence of the separator, or at the end of the text |
| Serializer.IndexOfShift | src/server/db/encrypt/columns.ts:63 | searching a suffix finds what searching the whole text further on finds, moved back |
| Serializer.SecondPieceCut | src/server/db/encrypt/columns.ts:63 | the second piece ends at the next occurrence of the separator after the first cut, or at the end of the text |
| Serializer.SplitJson | src/server/db/encrypt/columns.ts:63-66 | an accepted text begins with two non-empty separator-free parts joined by the separator; text without a separator is rejected |
| Serializer.SplitJsonCuts | src/server/db/encrypt/columns.ts:63-66 | the two accepted parts are cut at the leftmost occurrence of the separator and at the next one after it (or at the end of the text) |
| Serializer.SplitJsonFails | src/server/db/encrypt/columns.ts:63-66 | the guard rejects the text exactly when there is no separator, the text starts with one, or the first separator ends the text or is directly followed by another |
| Serializer.SplitJsonJoin | src/server/db/encrypt/columns.ts:39-66 | two non-empty separator-free parts, the first not ending with a colon, survive the join and split unchanged |
| Serializer.TrailingColonBreaksFrame | src/server/db/encrypt/columns.ts:39-66 | for every first part ending with a colon, the split never gives the two parts back |
| Serializer.TrailingColonMovesIntoMeta | src/server/db/encrypt/columns.ts:63 | for example, "a:" then the separator then "b" splits into "a" and ":b" |
| Serializer.SeparatorInJsonBreaksFrame | src/server/db/encrypt/columns.ts:40-63 | a json part that holds the separator is never handed back intact |
| Serializer.DateToIsoString | src/server/db/encrypt/columns.ts:42 | rendering fails with "Invalid time value" exactly for the Invalid Date |
| Serializer.DataToString | src/server/db/encrypt/columns.ts:25-46 | rendering fails exactly for the Invalid Date (with "Invalid time value") and for a json value superjson cannot serialize (with superjson's message); an integer renders by `toString`, a number by the library's `toString`, a valid date by `toISOString`; text and varchar pass through; booleans become "true"/"false"; a json value renders as superjson's two parts joined by the separator |
| Serializer.ParseJson | src/server/db/encrypt/columns.ts:62-74 | a text the split guard rejects fails with "Invalid JSON string"; an accepted text gives exactly superjson's reading of the two split parts, its error included |
| Serializer.JsonColumnValue | src/server/db/encrypt/columns.ts:62-74 | the json branch yields the json value superjson reads, or passes its error through unchanged, and "Invalid JSON string" when the split guard rejects the text |
| Serializer.StringToData | src/server/db/encrypt/columns.ts:48-80 | a parsed value has the requested column type; integers read by parseInt, numbers by parseFloat, dates by `new Date`, booleans as true exactly for "true", json by the split and superjson; only json can fail, and a rejected split gives "Invalid JSON string"; text and varchar are the text itself |
| Serializer.SerializeRoundTrip | src/server/db/encrypt/columns.ts:25-80 | with the date law, every representable value (an integer within 2^53, a json value superjson carries, a valid date, ...) renders without error and parses back to itself under its own column type |
| Columns.DataType | src/server/db/encrypt/columns.ts:88-90 | every encrypted column is stored as text, whatever its type |
| Columns.ToDriver | src/server/db/encrypt/columns.ts:103-113 | writing fails exactly when rendering fails (Invalid Date or a superjson error) or the key is missing; the message names the column, and a rendering error takes precedence; a successful write stores encryptSync of the rendered text |
| Columns.FromDriver | src/server/db/encrypt/columns.ts:92-101 | a value read back has the column's type; a decryption failure gives the column prefix followed by decryptSync's message; after decryption the result is stringToData's, with its error message prefixed by the column's; a missing key gives the doubly prefixed message |
| Columns.ColumnRoundTrip | src/server/db/encrypt/columns.ts:83-115 | with a configured key, lawful encodings and the date law, any representable value is written without error and reads back as itself, whatever IV is drawn |
| Columns.FromDriverAuthenticated | src/server/db/encrypt/columns.ts:92-101 | a value read back comes from a successful decryption whose blob's tag authenticates its ciphertext under the configured key |
| Columns.FreshIvsStoreDistinctTexts | src/server/db/encrypt/columns.ts:103-107 | writing the same renderable value twice with different IVs stores different texts |

## Left out

- The IV from `crypto.randomBytes(12)` is a parameter of `EncryptSync` and `ToDriver`. Randomness is not modelled, so nothing is claimed about IVs repeating.
- SHA-256, AES-256, UTF-8 and base64 are fields of `Platform.Crypto`. The round trips rely on the UTF-8 and base64 decoders inverting their encoders (`Platform.Lawful`). Invalid UTF-8 replacement and base64 tolerance of stray characters are not modelled.
- Strings are sequences of Unicode scalar values. JavaScript strings holding lone surrogates, which UTF-8 encoding replaces with U+FFFD, are not modelled.
- Number rendering and parsing in number columns, `Date` and superjson are fields of `Serializer.Libraries`. `LibrariesLawful` states the date law the round trip needs, and no witness for it is constructed.
- superjson does not carry every json value back unchanged. Examples are a `Date` object holding the Invalid Date inside the value, NaN payloads other than the canonical one, and objects with repeated keys or integer-like keys after other keys. Which values it carries is left to the library: `SuperjsonCarries` is required value by value in `Representable`.
- `JsValue` covers undefined, null, booleans, numbers, strings, dates, arrays and plain objects. A json column is typed `unknown`, and superjson also carries BigInt, Map, Set, RegExp, Error, registered class instances and shared or circular references; none of these is modelled.
- An integer column holds any JavaScript number, but the model holds only integers and NaN there. A fractional number such as 1.5 renders as "1.5", which `parseInt` reads back as 1; that truncation is not modelled.
- Serializer.ParseInt: reads digits into a mathematical integer. JavaScript rounds digit strings beyond 2^53 to the nearest double, and reads "-0" as negative zero, where the model gives 0. Neither is modelled.
- Serializer.IntegerToString: models integers in plain decimal only. The exponent form `toString` uses from 1e21 upwards, rounding above 2^53, negative zero and infinities are not modelled.
- Serializer.SerializeRoundTrip: holds only for `Representable` values. An integer must lie within 2^53 in magnitude; a number must survive `toString` then `parseFloat`; a json value must be one superjson carries, and the framing cannot carry a rendering that holds `:::::` (`SeparatorInJsonBreaksFrame`) or whose first part ends with a colon (`TrailingColonBreaksFrame`).
- Cipher.DecryptAuthenticated: states that the tag matches the recomputed tag. It does not state that a wrong key or a forged blob is rejected with high probability, which needs cryptographic assumptions about AES.
- GCM's length limits (plaintext under 2^39 - 256 bits, IV under 2^64 bits) are not modelled; byte strings are unbounded.
- The `sql` template that wraps the stored text in `toDriver` is left out. The model returns the stored text itself.
- The `default` branches of `dataToString` and `stringToData` are left out. The column type is a closed enumeration, so they cannot be reached.
- The Drizzle `customType` machinery and the column's registration under its name are left out. `EncryptedColumn` keeps only the name and the type.

=== FILE: cipher.dfy ===
/** The authenticated-cipher layer of `src/server/db/encrypt/functions.ts`: key
    derivation, `encryptSync` and `decryptSync`, with the blob layout
    iv (12 bytes) || tag (16 bytes) || ciphertext, carried as base64 text. */
module Cipher {
  import opened Wrappers
  import opened Gcm
  import opened Platform

  const IvLength: nat := 12
  const TagLength: nat := 16
  const HeaderLength: nat := IvLength + TagLength

  const MissingKeyMessage := "ENCRYPTION_KEY environment variable is required"
  const EncryptionFailedPrefix := "Encryption failed: "
  const DecryptionFailedPrefix := "Decryption failed: "

  /** The nonce `randomBytes(12)` draws. Randomness is not modelled: every
      encryption takes its IV as an argument. */
  type Iv = b: Bytes | |b| == IvLength witness seq(12, _ => 0)

  /** `getEncryptionKey`. `secret` is `process.env.ENCRYPTION_KEY` when the call
      is made; an unset or empty variable is an error. */
  function GetEncryptionKey(c: Crypto, secret: Option<string>): (r: Result<Key>)
    ensures r.Err? <==> secret == None || secret == Some("")
    ensures r.Err? ==> r.message == MissingKeyMessage
    ensures r.Ok? ==> r.value == c.sha256(c.utf8Encode(secret.value))
  {
    if secret == None || secret == Some("") then Err(MissingKeyMessage)
    else Ok(c.sha256(c.utf8Encode(secret.value)))
  }

  /** `Buffer.concat([iv, authTag, ciphertext])`. */
  function Frame(iv: Bytes, tag: Bytes, ciphertext: Bytes): Bytes {
    iv + tag + ciphertext
  }

  function Min(a: nat, b: nat): nat {
    if a < b then a else b
  }

  /** `buffer.subarray(start, end)`: both bounds are clamped to the length, and
      an end before the start gives an empty view. */
  function Subarray(b: Bytes, start: nat, end: nat): Bytes {
    var s, e := Min(start, |b|), Min(end, |b|);
    if s <= e then b[s..e] else []
  }

  datatype Parts = Parts(iv: Bytes, tag: Bytes, ciphertext: Bytes)

  /** The three views `decryptSync` takes at offsets 0, 12 and 28. No length is
      checked first: a short blob gives short (possibly empty) views. */
  function Unframe(b: Bytes): (r: Parts)
    ensures Frame(r.iv, r.tag, r.ciphertext) == b
    ensures |r.iv| == Min(|b|, IvLength)
    ensures |r.tag| == Min(|b| - |r.iv|, TagLength)
  {
    Parts(Subarray(b, 0, IvLength), Subarray(b, IvLength, HeaderLength), Subarray(b, HeaderLength, |b|))
  }

  /** `encryptSync` under the IV `iv`. The cipher's base64 output of `update` and
      `final` is decoded again before it is framed. */
  function EncryptSync(c: Crypto, secret: Option<string>, iv: Iv, plaintext: string): (r: Result<string>)
    ensures r.Err? <==> GetEncryptionKey(c, secret).Err?
    ensures r.Err? ==> r.message == EncryptionFailedPrefix + MissingKeyMessage
  {
    match GetEncryptionKey(c, secret)
    case Err(m) => Err(EncryptionFailedPrefix + m)
    case Ok(key) =>
      var sealed := Seal(c.aes256, key, iv, c.utf8Encode(plaintext));
      var ciphertext := c.base64Encode(sealed.ciphertext);
      Ok(c.base64Encode(Frame(iv, sealed.tag, c.base64Decode(ciphertext))))
  }

  /** `decryptSync`. Every failure, the missing key included, carries the
      "Decryption failed: " prefix; plaintext is returned only after the tag
      check of `final` has passed. */
  function DecryptSync(c: Crypto, secret: Option<string>, data: string): (r: Result<string>)
    ensures r.Err? ==> |r.message| >= |DecryptionFailedPrefix| && r.message[..|DecryptionFailedPrefix|] == DecryptionFailedPrefix
    ensures GetEncryptionKey(c, secret).Err? ==> r == Err(DecryptionFailedPrefix + MissingKeyMessage)
    ensures GetEncryptionKey(c, secret).Ok? ==>
      var parts := Unframe(c.base64Decode(data));
      var outcome := Open(c.aes256, GetEncryptionKey(c, secret).value, parts.iv, parts.tag, parts.ciphertext);
      outcome.Err? ==> r == Err(DecryptionFailedPrefix + outcome.message)
  {
    match GetEncryptionKey(c, secret)
    case Err(m) => Err(DecryptionFailedPrefix + m)
    case Ok(key) =>
      var parts := Unframe(c.base64Decode(data));
      match Open(c.aes256, key, parts.iv, parts.tag, parts.ciphertext)
      case Err(m) => Err(DecryptionFailedPrefix + m)
      case Ok(p) => Ok(c.utf8Decode(p))
  }

  /** Slicing at 0, 12 and 28 undoes the concatenation, and the blob is 28 bytes
      longer than the ciphertext. */
  lemma UnframeFrame(iv: Iv, tag: Block, ciphertext: Bytes)
    ensures |Frame(iv, tag, ciphertext)| == HeaderLength + |ciphertext|
    ensures Unframe(Frame(iv, tag, ciphertext)) == Parts(iv, tag, ciphertext)
  {
    var b := Frame(iv, tag, ciphertext);
    assert b[..IvLength] == iv;
    assert b[IvLength..HeaderLength] == tag;
    assert b[HeaderLength..] == ciphertext;
  }

  /** A blob shorter than 28 bytes is sliced without complaint: everything after
      the IV is taken as the tag and the ciphertext view is empty. */
  lemma UnframeShort(iv: Iv, rest: Bytes)
    requires |rest| < TagLength
    ensures Unframe(iv + rest) == Parts(iv, rest, [])
  {
    var b := iv + rest;
    assert b[..IvLength] == iv;
    assert b[IvLength..] == rest;
  }

  /** The blob `encryptSync` returns decodes to the IV, the full GCM tag and the
      ciphertext, in that order, and is 28 bytes longer than the UTF-8 plaintext. */
  lemma EncryptSyncLayout(c: Crypto, secret: Option<string>, iv: Iv, plaintext: string)
    requires Lawful(c)
    requires GetEncryptionKey(c, secret).Ok?
    ensures EncryptSync(c, secret, iv, plaintext).Ok?
    ensures
      var key := GetEncryptionKey(c, secret).value;
      var sealed := Seal(c.aes256, key, iv, c.utf8Encode(plaintext));
      var blob := c.base64Decode(EncryptSync(c, secret, iv, plaintext).value);
      && |blob| == HeaderLength + |c.utf8Encode(plaintext)|
      && Unframe(blob) == Parts(iv, sealed.tag, sealed.ciphertext)
  {
    var key := GetEncryptionKey(c, secret).value;
    var sealed := Seal(c.aes256, key, iv, c.utf8Encode(plaintext));
    assert c.base64Decode(c.base64Encode(sealed.ciphertext)) == sealed.ciphertext;
    var framed := Frame(iv, sealed.tag, sealed.ciphertext);
    assert c.base64Decode(c.base64Encode(framed)) == framed;
    UnframeFrame(iv, sealed.tag, sealed.ciphertext);
  }

  /** Under the same key, decryption returns what was encrypted, whatever the IV. */
  lemma DecryptEncrypt(c: Crypto, secret: Option<string>, iv: Iv, plaintext: string)
    requires Lawful(c)
    requires GetEncryptionKey(c, secret).Ok?
    ensures EncryptSync(c, secret, iv, plaintext).Ok?
    ensures DecryptSync(c, secret, EncryptSync(c, secret, iv, plaintext).value) == Ok(plaintext)
  {
    var key := GetEncryptionKey(c, secret).value;
    var bytes := c.utf8Encode(plaintext);
    EncryptSyncLayout(c, secret, iv, plaintext);
    OpenSeal(c.aes256, key, iv, bytes, TagLength);
    assert Seal(c.aes256, key, iv, bytes).tag[..TagLength] == Seal(c.aes256, key, iv, bytes).tag;
  }

  /** Two encryptions under different IVs give different blobs. */
  lemma DistinctIvsGiveDistinctBlobs(c: Crypto, secret: Option<string>, iv1: Iv, iv2: Iv, plaintext: string)
    requires Lawful(c)
    requires GetEncryptionKey(c, secret).Ok?
    requires iv1 != iv2
    ensures EncryptSync(c, secret, iv1, plaintext) != EncryptSync(c, secret, iv2, plaintext)
  {
    EncryptSyncLayout(c, secret, iv1, plaintext);
    EncryptSyncLayout(c, secret, iv2, plaintext);
  }

  /** Decryption returns plaintext only when the tag verifies: the IV, tag and
      ciphertext read from the blob are those of an encryption, under this key,
      of bytes whose UTF-8 reading is the result. */
  lemma DecryptAuthenticated(c: Crypto, secret: Option<string>, data: string, plaintext: string)
    requires DecryptSync(c, secret, data) == Ok(plaintext)
    ensures GetEncryptionKey(c, secret).Ok?
    ensures
      var key := GetEncryptionKey(c, secret).value;
      var parts := Unframe(c.base64Decode(data));
      && AllowedTagLength(|parts.tag|)
      && exists p: Bytes ::
           && Seal(c.aes256, key, parts.iv, p).ciphertext == parts.ciphertext
           && parts.tag == Seal(c.aes256, key, parts.iv, p).tag[..|parts.tag|]
           && plaintext == c.utf8Decode(p)
  {
    var key := GetEncryptionKey(c, secret).value;
    var parts := Unframe(c.base64Decode(data));
    var p := Open(c.aes256, key, parts.iv, parts.tag, parts.ciphertext).value;
    OpenAuthenticated(c.aes256, key, parts.iv, parts.tag, parts.ciphertext, p);
  }

  /** A blob that decodes to fewer than 16 bytes always fails: its tag view is
      shorter than any tag length GCM allows, or its IV view is empty. */
  lemma ShortBlobRejected(c: Crypto, secret: Option<string>, data: string)
    requires |c.base64Decode(data)| < IvLength + 4
    ensures DecryptSync(c, secret, data).Err?
  {
  }

  /** There is no "shorter than 28 bytes" check: a blob made of an IV and the
      leading bytes of the tag of an empty ciphertext, 16 to 27 bytes in all,
      decrypts. */
  lemma ShortBlobAccepted(c: Crypto, secret: Option<string>, data: string, iv: Iv, tagLength: nat)
    requires GetEncryptionKey(c, secret).Ok?
    requires AllowedTagLength(tagLength) && tagLength < TagLength
    requires c.base64Decode(data) == iv + Seal(c.aes256, GetEncryptionKey(c, secret).value, iv, []).tag[..tagLength]
    ensures |c.base64Decode(data)| < HeaderLength
    ensures DecryptSync(c, secret, data) == Ok(c.utf8Decode([]))
  {
    var key := GetEncryptionKey(c, secret).value;
    var sealed := Seal(c.aes256, key, iv, []);
    UnframeShort(iv, sealed.tag[..tagLength]);
    OpenSeal(c.aes256, key, iv, [], tagLength);
    DecryptSyncOfOpen(c, secret, data, []);
  }

  /** `decryptSync` returns the UTF-8 reading of whatever GCM decryption of the
      three views returns. */
  lemma DecryptSyncOfOpen(c: Crypto, secret: Option<string>, data: string, p: Bytes)
    requires GetEncryptionKey(c, secret).Ok?
    requires
      var parts := Unframe(c.base64Decode(data));
      Open(c.aes256, GetEncryptionKey(c, secret).value, parts.iv, parts.tag, parts.ciphertext) == Ok(p)
    ensures DecryptSync(c, secret, data) == Ok(c.utf8Decode(p))
  {
  }
}

=== FILE: columns.dfy ===
/** The encrypted column of `src/server/db/encrypt/columns.ts`: `encrypted(name,
    type)` builds a custom column stored as text whose `toDriver` hook serializes
    and then encrypts, and whose `fromDriver` hook decrypts and then parses. Each
    hook wraps any failure in a message that names the column. */
module Columns {
  import opened Wrappers
  import Gcm
  import opened Platform
  import opened Cipher
  import opened Serializer

  /** What `encrypted(columnName, columnType)` builds. */
  datatype EncryptedColumn = EncryptedColumn(name: string, columnType: ColumnType)

  /** What the hooks read besides their argument: the cryptographic primitives,
      the serialization libraries and the `ENCRYPTION_KEY` variable. */
  datatype Environment = Environment(crypto: Crypto, libraries: Libraries, secret: Option<string>)

  /** The environment is well behaved: the primitives and libraries keep their
      laws and a non-empty key is configured. */
  ghost predicate Configured(env: Environment) {
    && Lawful(env.crypto)
    && LibrariesLawful(env.libraries)
    && GetEncryptionKey(env.crypto, env.secret).Ok?
  }

  /** `dataType()`: every encrypted column is stored as text, whatever its type. */
  function DataType(col: EncryptedColumn): (r: string)
    ensures r == "text"
  {
    "text"
  }

  function EncryptColumnPrefix(name: string): string {
    "Failed to encrypt column '" + name + "': "
  }

  function DecryptColumnPrefix(name: string): string {
    "Failed to decrypt column '" + name + "': "
  }

  predicate HasPrefix(s: string, prefix: string) {
    prefix <= s
  }

  /** `toDriver(data)` when `crypto.randomBytes(12)` yields `iv`. Serialization
      runs first, so its failure (an Invalid Date, or a json value superjson
      cannot serialize) is reported even when the key is missing; either failure
      is wrapped once more with the column's name. */
  function ToDriver(env: Environment, iv: Iv, col: EncryptedColumn, v: Value): (r: Result<string>)
    requires TypeOf(v) == col.columnType
    ensures r.Err? <==> DataToString(env.libraries, v).Err? || GetEncryptionKey(env.crypto, env.secret).Err?
    ensures v == DateValue(InvalidDate) ==> r == Err(EncryptColumnPrefix(col.name) + InvalidTimeMessage)
    ensures DataToString(env.libraries, v).Err? ==>
      r == Err(EncryptColumnPrefix(col.name) + DataToString(env.libraries, v).message)
    ensures DataToString(env.libraries, v).Ok? && GetEncryptionKey(env.crypto, env.secret).Err? ==>
      r == Err(EncryptColumnPrefix(col.name) + EncryptionFailedPrefix + MissingKeyMessage)
    ensures r.Ok? ==>
      && DataToString(env.libraries, v).Ok?
      && r == EncryptSync(env.crypto, env.secret, iv, DataToString(env.libraries, v).value)
  {
    match DataToString(env.libraries, v)
    case Err(m) => Err(EncryptColumnPrefix(col.name) + m)
    case Ok(text) =>
      match EncryptSync(env.crypto, env.secret, iv, text)
      case Err(m) => Err(EncryptColumnPrefix(col.name) + m)
      case Ok(stored) => Ok(stored)
  }

  /** `fromDriver(encryptedValue)`. A value comes back only with the column's own
      type; every failure names the column, and apart from decryption only the
      json parse can fail. */
  function FromDriver(env: Environment, col: EncryptedColumn, stored: string): (r: Result<Value>)
    ensures r.Ok? ==> TypeOf(r.value) == col.columnType
    ensures r.Err? ==> HasPrefix(r.message, DecryptColumnPrefix(col.name))
    ensures r.Err? ==> DecryptSync(env.crypto, env.secret, stored).Err? || col.columnType == Json
    ensures GetEncryptionKey(env.crypto, env.secret).Err? ==>
      r == Err(DecryptColumnPrefix(col.name) + DecryptionFailedPrefix + MissingKeyMessage)
    ensures DecryptSync(env.crypto, env.secret, stored).Err? ==>
      r == Err(DecryptColumnPrefix(col.name) + DecryptSync(env.crypto, env.secret, stored).message)
    ensures DecryptSync(env.crypto, env.secret, stored).Ok? ==>
      var parsed := StringToData(env.libraries, DecryptSync(env.crypto, env.secret, stored).value, col.columnType);
      r == if parsed.Err? then Err(DecryptColumnPrefix(col.name) + parsed.message) else parsed
  {
    match DecryptSync(env.crypto, env.secret, stored)
    case Err(m) => Err(DecryptColumnPrefix(col.name) + m)
    case Ok(text) =>
      match StringToData(env.libraries, text, col.columnType)
      case Err(m) => Err(DecryptColumnPrefix(col.name) + m)
      case Ok(v) => Ok(v)
  }

  /** The column round trip: with a configured environment, any representable
      value of the column's type is stored without error, whatever IV is drawn,
      and reading the stored text back gives the same value. */
  lemma ColumnRoundTrip(env: Environment, iv: Iv, col: EncryptedColumn, v: Value)
    requires Configured(env)
    requires TypeOf(v) == col.columnType
    requires Representable(env.libraries, v)
    ensures ToDriver(env, iv, col, v).Ok?
    ensures FromDriver(env, col, ToDriver(env, iv, col, v).value) == Ok(v)
  {
    SerializeRoundTrip(env.libraries, v);
    var text := DataToString(env.libraries, v).value;
    DecryptEncrypt(env.crypto, env.secret, iv, text);
  }

  /** A value read from the database was stored by this scheme: its blob carries
      a tag that authenticates its ciphertext under the configured key, and the
      value is what the decrypted text parses to. */
  lemma FromDriverAuthenticated(env: Environment, col: EncryptedColumn, stored: string, v: Value)
    requires FromDriver(env, col, stored) == Ok(v)
    ensures DecryptSync(env.crypto, env.secret, stored).Ok?
    ensures StringToData(env.libraries, DecryptSync(env.crypto, env.secret, stored).value, col.columnType) == Ok(v)
    ensures GetEncryptionKey(env.crypto, env.secret).Ok?
    ensures
      var key := GetEncryptionKey(env.crypto, env.secret).value;
      var parts := Unframe(env.crypto.base64Decode(stored));
      exists p: Gcm.Bytes ::
        && Gcm.Seal(env.crypto.aes256, key, parts.iv, p).ciphertext == parts.ciphertext
        && parts.tag == Gcm.Seal(env.crypto.aes256, key, parts.iv, p).tag[..|parts.tag|]
        && StringToData(env.libraries, env.crypto.utf8Decode(p), col.columnType) == Ok(v)
  {
    var text := DecryptSync(env.crypto, env.secret, stored).value;
    DecryptAuthenticated(env.crypto, env.secret, stored, text);
  }

  /** Two writes of the same value draw different IVs and so store different
      texts. */
  lemma FreshIvsStoreDistinctTexts(env: Environment, iv1: Iv, iv2: Iv, col: EncryptedColumn, v: Value)
    requires Lawful(env.crypto) && GetEncryptionKey(env.crypto, env.secret).Ok?
    requires TypeOf(v) == col.columnType && DataToString(env.libraries, v).Ok?
    requires iv1 != iv2
    ensures ToDriver(env, iv1, col, v) != ToDriver(env, iv2, col, v)
  {
    var text := DataToString(env.libraries, v).value;
    DistinctIvsGiveDistinctBlobs(env.crypto, env.secret, iv1, iv2, text);
  }
}

=== FILE: decimal.dfy ===
/** Base-10 digit strings: the rendering used by `Number.prototype.toString()` for
    integral values and the digit reading used by `parseInt(_, 10)`. */
module Decimal {

  predicate IsDigit(c: char) {
    '0' <= c <= '9'
  }

  predicate AllDigits(s: string) {
    forall i :: 0 <= i < |s| ==> IsDigit(s[i])
  }

  function DigitValue(c: char): (d: nat)
    requires IsDigit(c)
    ensures d < 10
  {
    c as int - '0' as int
  }

  function DigitChar(d: nat): (c: char)
    requires d < 10
    ensures IsDigit(c) && DigitValue(c) == d
  {
    (d + '0' as int) as char
  }

  /** The shortest decimal rendering of `n`: at least one digit, and a leading
      zero only for zero itself. */
  function Digits(n: nat): (s: string)
    ensures |s| >= 1 && AllDigits(s)
    ensures s[0] == '0' <==> n == 0
    decreases n
  {
    if n < 10 then [DigitChar(n)] else Digits(n / 10) + [DigitChar(n % 10)]
  }

  /** The number a digit string denotes, most significant digit first. */
  function Value(s: string): nat
    requires AllDigits(s)
    decreases |s|
  {
    if s == [] then 0 else Value(s[..|s| - 1]) * 10 + DigitValue(s[|s| - 1])
  }

  /** Reading back a rendered number gives the number. */
  lemma {:induction false} ValueOfDigits(n: nat)
    ensures Value(Digits(n)) == n
    decreases n
  {
    var s := Digits(n);
    if n >= 10 {
      ValueOfDigits(n / 10);
      assert s[..|s| - 1] == Digits(n / 10);
    }
  }

  /** Rendering is injective: distinct numbers have distinct renderings. */
  lemma DigitsInjective(m: nat, n: nat)
    requires Digits(m) == Digits(n)
    ensures m == n
  {
    ValueOfDigits(m);
    ValueOfDigits(n);
  }
}

=== FILE: gcm.dfy ===
/** AES-256-GCM as Node's `crypto` module runs it for the codec: the Galois/Counter
    Mode of NIST SP 800-38D (sections 6 and 7) with an empty additional-data string,
    over a block cipher that is a parameter (AES-256 of FIPS 197 in the source). */
module Gcm {
  import opened Wrappers
  import Decimal

  type Byte = bv8
  type Bytes = seq<Byte>
  type Block = b: Bytes | |b| == 16 witness seq(16, _ => 0)
  type Key = k: Bytes | |k| == 32 witness seq(32, _ => 0)

  /** CIPH_K: the forward block cipher under a 256-bit key. */
  type BlockCipher = (Key, Block) -> Block

  const ZeroBlock: Block := seq(16, _ => 0)

  /** R of SP 800-38D section 6.3: 11100001 followed by 120 zero bits. */
  const R: bv128 := 0xE1 << 120

  /** The tag lengths in bytes that `Decipher.setAuthTag` accepts for GCM. */
  predicate AllowedTagLength(n: nat) {
    n == 4 || n == 8 || 12 <= n <= 16
  }

  const InvalidIvMessage := "Invalid initialization vector"
  const AuthFailureMessage := "Unsupported state or unable to authenticate data"
  const TagLengthMessagePrefix := "Invalid authentication tag length: "

  function XorBytes(a: Bytes, b: Bytes): (r: Bytes)
    requires |a| == |b|
    ensures |r| == |a|
  {
    seq(|a|, i requires 0 <= i < |a| => a[i] ^ b[i])
  }

  /** Big-endian reading of a byte string, most significant byte first. */
  function BytesToBits(b: Bytes, acc: bv128): bv128
    decreases |b|
  {
    if b == [] then acc else BytesToBits(b[1..], (acc << 8) | (b[0] as bv128))
  }

  function BlockToBits(b: Block): bv128 {
    BytesToBits(b, 0)
  }

  /** The low `width` bytes of `x`, most significant first. */
  function BitsToBytes(x: bv128, width: nat): (r: Bytes)
    ensures |r| == width
    decreases width
  {
    if width == 0 then [] else BitsToBytes(x >> 8, width - 1) + [(x & 0xFF) as bv8]
  }

  function BitsToBlock(x: bv128): Block {
    BitsToBytes(x, 16)
  }

  /** The byte whose value is `x`, counted up from zero. */
  function ByteOf(x: nat): (b: Byte)
    requires x < 256
    ensures b as int == x
    decreases x
  {
    if x == 0 then 0 else ByteOf(x - 1) + 1
  }

  function Pow256(width: nat): (p: nat)
    ensures p > 0
  {
    if width == 0 then 1 else 256 * Pow256(width - 1)
  }

  /** [n]_width: `n` modulo 256^width as `width` big-endian bytes. */
  function BigEndian(n: nat, width: nat): (r: Bytes)
    ensures |r| == width
    decreases width
  {
    if width == 0 then [] else BigEndian(n / 256, width - 1) + [ByteOf(n % 256)]
  }

  /** The number a byte string denotes, most significant byte first. */
  function BigEndianValue(b: Bytes): nat
    decreases |b|
  {
    if b == [] then 0 else BigEndianValue(b[..|b| - 1]) * 256 + b[|b| - 1] as int
  }

  lemma ModOfSplit(n: nat, p: nat)
    requires p > 0
    ensures (n / 256) % p * 256 + n % 256 == n % (256 * p)
  {
    var q, c := n / 256, (n / 256) % p;
    var a := q / p;
    assert q == p * a + c;
    assert n == 256 * q + n % 256;
    assert n == (256 * p) * a + (256 * c + n % 256);
    assert 0 <= 256 * c + n % 256 < 256 * p;
    ModUnique(n, 256 * p, a, 256 * c + n % 256);
  }

  lemma MulMonotone(d: int, k: int)
    requires d > 0 && k >= 1
    ensures d * k >= d
  {
  }

  lemma ModUnique(n: int, d: int, a: int, rem: int)
    requires d > 0 && n == d * a + rem && 0 <= rem < d
    ensures n % d == rem
  {
    var k := a - n / d;
    assert d * k == n % d - rem;
    if k >= 1 {
      MulMonotone(d, k);
    } else if k <= -1 {
      MulMonotone(d, -k);
    }
  }

  /** Reading back [n]_width gives `n` modulo 256^width. */
  lemma {:induction false} BigEndianRoundTrip(n: nat, width: nat)
    ensures BigEndianValue(BigEndian(n, width)) == n % Pow256(width)
    decreases width
  {
    if width > 0 {
      var b := BigEndian(n, width);
      assert b[..|b| - 1] == BigEndian(n / 256, width - 1);
      BigEndianRoundTrip(n / 256, width - 1);
      ModOfSplit(n, Pow256(width - 1));
    }
  }

  /** The product of two blocks in GF(2^128), SP 800-38D Algorithm 1. */
  function GfMul(x: bv128, y: bv128): bv128 {
    GfMulFrom(x, 128, 0, y)
  }

  /** The last `n` rounds of Algorithm 1: round i = 128 - n reads bit x_i, the
      (i+1)-th bit from the left, with Z_i = z and V_i = v. */
  function GfMulFrom(x: bv128, n: nat, z: bv128, v: bv128): bv128
    decreases n
  {
    if n == 0 || n > 128 then z
    else
      var z' := if (x >> (n - 1)) & 1 == 1 then z ^ v else z;
      var v' := if v & 1 == 0 then v >> 1 else (v >> 1) ^ R;
      GfMulFrom(x, n - 1, z', v')
  }

  /** GHASH_H (Algorithm 2) continued from the running value `y` over `x`; a
      trailing partial block is padded with zero bytes, as SP 800-38D pads the
      IV and the ciphertext before hashing them. */
  function Ghash(h: bv128, y: bv128, x: Bytes): bv128
    decreases |x|
  {
    if x == [] then y
    else
      var m := if |x| < 16 then |x| else 16;
      var block: Block := x[..m] + seq(16 - m, _ => 0);
      Ghash(h, GfMul(y ^ BlockToBits(block), h), x[m..])
  }

  /** inc_32: the last 32 bits are incremented modulo 2^32, the first 96 are kept. */
  function Inc32(cb: Block): (r: Block)
    ensures r[..12] == cb[..12]
    ensures BigEndianValue(r[12..]) == (BigEndianValue(cb[12..]) + 1) % 0x1_0000_0000
  {
    var low := BigEndian(BigEndianValue(cb[12..]) + 1, 4);
    BigEndianRoundTrip(BigEndianValue(cb[12..]) + 1, 4);
    assert Pow256(4) == 0x1_0000_0000 by {
      assert Pow256(2) == 0x1_0000;
    }
    assert (cb[..12] + low)[12..] == low;
    cb[..12] + low
  }

  /** GCTR_K (Algorithm 3): `x` XORed with the cipher of successive counter blocks,
      the last, partial block with the leading bytes of its counter's cipher. */
  function Gctr(e: BlockCipher, k: Key, cb: Block, x: Bytes): (y: Bytes)
    ensures |y| == |x|
    decreases |x|
  {
    if x == [] then []
    else
      var m := if |x| < 16 then |x| else 16;
      XorBytes(x[..m], e(k, cb)[..m]) + Gctr(e, k, Inc32(cb), x[m..])
  }

  /** The hash subkey H = CIPH_K(0^128). */
  function HashSubkey(e: BlockCipher, k: Key): bv128 {
    BlockToBits(e(k, ZeroBlock))
  }

  /** The pre-counter block J_0 (Algorithm 4, step 2). */
  function PreCounterBlock(e: BlockCipher, k: Key, iv: Bytes): Block {
    if |iv| == 12 then iv + [0, 0, 0, 1]
    else
      var h := HashSubkey(e, k);
      BitsToBlock(Ghash(h, Ghash(h, 0, iv), seq(8, _ => 0) + BigEndian(|iv| * 8, 8)))
  }

  /** The full 128-bit tag T of Algorithm 4, steps 5 and 6, for ciphertext `c` and
      an empty additional-data string. */
  function FullTag(e: BlockCipher, k: Key, iv: Bytes, c: Bytes): Block {
    var h := HashSubkey(e, k);
    var s := Ghash(h, Ghash(h, 0, c), seq(8, _ => 0) + BigEndian(|c| * 8, 8));
    Gctr(e, k, PreCounterBlock(e, k, iv), BitsToBlock(s))
  }

  datatype Sealed = Sealed(ciphertext: Bytes, tag: Block)

  /** Authenticated encryption (Algorithm 4): what `createCipheriv`, `update`,
      `final` and `getAuthTag` compute together. */
  function Seal(e: BlockCipher, k: Key, iv: Bytes, p: Bytes): (r: Sealed)
    ensures |r.ciphertext| == |p|
  {
    var c := Gctr(e, k, Inc32(PreCounterBlock(e, k, iv)), p);
    Sealed(c, FullTag(e, k, iv, c))
  }

  /** Authenticated decryption (Algorithm 5) as `createDecipheriv`, `setAuthTag`,
      `update` and `final` run it: an empty IV and a tag of a length GCM does not
      allow are refused, and a tag that is not the leading bytes of the tag
      computed from the ciphertext fails authentication. */
  function Open(e: BlockCipher, k: Key, iv: Bytes, tag: Bytes, c: Bytes): (r: Result<Bytes>)
    ensures r.Ok? <==> |iv| > 0 && AllowedTagLength(|tag|) && tag == FullTag(e, k, iv, c)[..|tag|]
    ensures r.Ok? ==> |r.value| == |c|
    ensures r.Err? ==> r.message == InvalidIvMessage || r.message == AuthFailureMessage
                       || r.message == TagLengthMessagePrefix + Decimal.Digits(|tag|)
  {
    if |iv| == 0 then Err(InvalidIvMessage)
    else if !AllowedTagLength(|tag|) then Err(TagLengthMessagePrefix + Decimal.Digits(|tag|))
    else if tag != FullTag(e, k, iv, c)[..|tag|] then Err(AuthFailureMessage)
    else Ok(Gctr(e, k, Inc32(PreCounterBlock(e, k, iv)), c))
  }

  /** Counter-mode encryption is its own inverse. */
  lemma {:induction false} GctrInvolution(e: BlockCipher, k: Key, cb: Block, x: Bytes)
    ensures Gctr(e, k, cb, Gctr(e, k, cb, x)) == x
    decreases |x|
  {
    if x != [] {
      var m := if |x| < 16 then |x| else 16;
      var pad := e(k, cb)[..m];
      var y := Gctr(e, k, cb, x);
      assert y[..m] == XorBytes(x[..m], pad);
      assert y[m..] == Gctr(e, k, Inc32(cb), x[m..]);
      GctrInvolution(e, k, Inc32(cb), x[m..]);
      assert XorBytes(XorBytes(x[..m], pad), pad) == x[..m];
      assert x == x[..m] + x[m..];
    }
  }

  /** Decryption undoes encryption: opening a sealed message with its own key and
      IV, and with its tag or any leading part of it of an allowed length, gives
      back the plaintext. */
  lemma OpenSeal(e: BlockCipher, k: Key, iv: Bytes, p: Bytes, tagLength: nat)
    requires |iv| > 0
    requires AllowedTagLength(tagLength)
    ensures Open(e, k, iv, Seal(e, k, iv, p).tag[..tagLength], Seal(e, k, iv, p).ciphertext) == Ok(p)
  {
    GctrInvolution(e, k, Inc32(PreCounterBlock(e, k, iv)), p);
  }

  /** Decryption returns only authenticated plaintext: the plaintext it returns is
      the one whose encryption under this key and IV is exactly `c`, and the tag
      supplied is the leading part of that encryption's tag. */
  lemma OpenAuthenticated(e: BlockCipher, k: Key, iv: Bytes, tag: Bytes, c: Bytes, p: Bytes)
    requires Open(e, k, iv, tag, c) == Ok(p)
    ensures Seal(e, k, iv, p).ciphertext == c
    ensures AllowedTagLength(|tag|) && tag == Seal(e, k, iv, p).tag[..|tag|]
  {
    GctrInvolution(e, k, Inc32(PreCounterBlock(e, k, iv)), c);
  }
}

=== FILE: platform.dfy ===
/** The Node.js primitives the cipher layer calls but does not define: SHA-256 (FIPS
    180-4), the AES-256 block cipher (FIPS 197), UTF-8 text encoding and base64 (RFC
    4648 section 4). They are parameters of the model; the two laws the codec relies
    on are stated by `Lawful`. */
module Platform {
  import opened Gcm

  datatype Crypto = Crypto(
    /** `createHash("sha256").update(bytes).digest()`: 32 bytes, an AES-256 key. */
    sha256: Bytes -> Key,
    /** The AES-256 forward block cipher under which GCM runs. */
    aes256: BlockCipher,
    /** A string's UTF-8 bytes, as `update(text, "utf8")` and `Buffer.from(text)` take them. */
    utf8Encode: string -> Bytes,
    /** Bytes read as UTF-8, invalid sequences replaced; it never fails. */
    utf8Decode: Bytes -> string,
    /** `toString("base64")`: padded base64 text of the bytes. */
    base64Encode: Bytes -> string,
    /** `Buffer.from(text, "base64")`: lenient; it never fails. */
    base64Decode: string -> Bytes)

  /** Decoding undoes encoding, for UTF-8 and for base64. */
  ghost predicate Lawful(c: Crypto) {
    && (forall s: string :: c.utf8Decode(c.utf8Encode(s)) == s)
    && (forall b: Bytes :: c.base64Decode(c.base64Encode(b)) == b)
  }

  // A small platform that meets the laws, to show that they are consistent.

  function WideBytes(ch: char): (r: Bytes)
    ensures |r| == 3
  {
    var v := ch as int;
    SplitWide(v);
    [ByteOf(v / 65536), ByteOf((v / 256) % 256), ByteOf(v % 256)]
  }

  function WideEncode(s: string): (r: Bytes)
    ensures |r| == 3 * |s|
    decreases |s|
  {
    if s == [] then [] else WideBytes(s[0]) + WideEncode(s[1..])
  }

  function WideChar(b: Bytes): char
    requires |b| == 3
  {
    var v := b[0] as int * 65536 + b[1] as int * 256 + b[2] as int;
    if 0 <= v < 0xD800 || 0xE000 <= v < 0x11_0000 then v as char else '?'
  }

  function WideDecode(b: Bytes): string
    decreases |b|
  {
    if |b| < 3 then [] else [WideChar(b[..3])] + WideDecode(b[3..])
  }

  lemma SplitWide(v: int)
    requires 0 <= v < 0x11_0000
    ensures 0 <= v / 65536 < 256
    ensures (v / 65536) * 65536 + ((v / 256) % 256) * 256 + v % 256 == v
  {
    assert v / 256 == (v / 65536) * 256 + (v / 256) % 256;
  }

  lemma WideCharOfBytes(ch: char)
    ensures WideChar(WideBytes(ch)) == ch
  {
    SplitWide(ch as int);
  }

  lemma {:induction false} WideRoundTrip(s: string)
    ensures WideDecode(WideEncode(s)) == s
    decreases |s|
  {
    if s != [] {
      var b := WideEncode(s);
      assert b[..3] == WideBytes(s[0]);
      assert b[3..] == WideEncode(s[1..]);
      WideCharOfBytes(s[0]);
      WideRoundTrip(s[1..]);
    }
  }

  /** A byte written as eight '0'/'1' characters, most significant bit first. */
  function BitChars(b: Byte): (t: string)
    ensures |t| == 8
  {
    [ if b & 0x80 != 0 then '1' else '0', if b & 0x40 != 0 then '1' else '0',
      if b & 0x20 != 0 then '1' else '0', if b & 0x10 != 0 then '1' else '0',
      if b & 0x08 != 0 then '1' else '0', if b & 0x04 != 0 then '1' else '0',
      if b & 0x02 != 0 then '1' else '0', if b & 0x01 != 0 then '1' else '0' ]
  }

  function CharsByte(t: string): Byte
    requires |t| == 8
  {
    (if t[0] == '1' then 0x80 else 0) | (if t[1] == '1' then 0x40 else 0)
    | (if t[2] == '1' then 0x20 else 0) | (if t[3] == '1' then 0x10 else 0)
    | (if t[4] == '1' then 0x08 else 0) | (if t[5] == '1' then 0x04 else 0)
    | (if t[6] == '1' then 0x02 else 0) | (if t[7] == '1' then 0x01 else 0)
  }

  function BitsEncode(b: Bytes): (t: string)
    ensures |t| == 8 * |b|
    decreases |b|
  {
    if b == [] then [] else BitChars(b[0]) + BitsEncode(b[1..])
  }

  function BitsDecode(t: string): Bytes
    decreases |t|
  {
    if |t| < 8 then [] else [CharsByte(t[..8])] + BitsDecode(t[8..])
  }

  lemma CharsByteOfBits(b: Byte)
    ensures CharsByte(BitChars(b)) == b
  {
  }

  lemma {:induction false} BitsRoundTrip(b: Bytes)
    ensures BitsDecode(BitsEncode(b)) == b
    decreases |b|
  {
    if b != [] {
      var t := BitsEncode(b);
      assert t[..8] == BitChars(b[0]);
      assert t[8..] == BitsEncode(b[1..]);
      CharsByteOfBits(b[0]);
      BitsRoundTrip(b[1..]);
    }
  }

  function ZeroKey(secret: Bytes): Key {
    seq(32, _ => 0)
  }

  function PlainBlock(key: Key, block: Block): Block {
    block
  }

  /** Three-byte characters and bit-string base64: crude, but lawful. */
  function SmallPlatform(): Crypto {
    Crypto(ZeroKey, PlainBlock, WideEncode, WideDecode, BitsEncode, BitsDecode)
  }

  lemma SmallPlatformLawful()
    ensures Lawful(SmallPlatform())
  {
    var c := SmallPlatform();
    forall s: string ensures c.utf8Decode(c.utf8Encode(s)) == s {
      WideRoundTrip(s);
    }
    forall b: Bytes ensures c.base64Decode(c.base64Encode(b)) == b {
      BitsRoundTrip(b);
    }
  }

  lemma LawfulPlatformExists()
    ensures exists c :: Lawful(c)
  {
    SmallPlatformLawful();
  }
}

=== FILE: serializer.dfy ===
/** The value serializer of `src/server/db/encrypt/columns.ts`: `dataToString` and
    `stringToData` over the closed set of column types. The libraries it calls
    (`Number.prototype.toString`, `parseFloat`, `Date`, superjson) are parameters.
    Boolean rendering and the five-colon framing of json values are modelled
    exactly; integer rendering and `parseInt` are modelled on mathematical
    integers, which agree with JavaScript numbers up to 2^53 in magnitude. */
module Serializer {
  import opened Wrappers
  import opened Decimal

  /** `ColumnType`: the closed set of column types. */
  datatype ColumnType = Integer | Number | Boolean | Text | Varchar | Json | Date

  /** A JavaScript number, held as its IEEE 754 binary64 bit pattern;
      floating-point arithmetic is not modelled. */
  type Float64 = bv64

  /** The largest magnitude of a `Date` time value, in milliseconds. */
  const MaxTimeValue := 8_640_000_000_000_000

  type TimeValue = t: int | -MaxTimeValue <= t <= MaxTimeValue

  /** A `Date` object: a time value in milliseconds since the epoch, or the
      Invalid Date. */
  datatype JsDate = ValidTime(time: TimeValue) | InvalidDate

  /** An integral JavaScript number, or NaN. */
  datatype JsInteger = NaN | Int(value: int)

  /** 2^53: every integer up to this magnitude is a JavaScript number, and
      `toString` writes it in plain decimal. */
  const MaxExactInteger := 0x20_0000_0000_0000

  /** The values a `json` column holds. */
  datatype JsValue =
    | JsUndefined
    | JsNull
    | JsBoolean(boolean: bool)
    | JsNumber(number: Float64)
    | JsString(text: string)
    | JsDateObject(date: JsDate)
    | JsArray(items: seq<JsValue>)
    | JsObject(entries: seq<(string, JsValue)>)

  /** `ColumnTypeMap`: a value of the type each column type maps to. */
  datatype Value =
    | IntegerValue(integer: JsInteger)
    | NumberValue(number: Float64)
    | BooleanValue(boolean: bool)
    | TextValue(text: string)
    | VarcharValue(varchar: string)
    | JsonValue(json: JsValue)
    | DateValue(date: JsDate)

  function TypeOf(v: Value): ColumnType {
    match v
    case IntegerValue(_) => Integer
    case NumberValue(_) => Number
    case BooleanValue(_) => Boolean
    case TextValue(_) => Text
    case VarcharValue(_) => Varchar
    case JsonValue(_) => Json
    case DateValue(_) => Date
  }

  /** The library calls the serializer makes and does not define. */
  datatype Libraries = Libraries(
    /** `Number.prototype.toString()` on a value of a number column. */
    numberToString: Float64 -> string,
    /** `parseFloat(text)`. */
    parseFloat: string -> Float64,
    /** `Date.prototype.toISOString()` on a valid date. */
    toIsoString: TimeValue -> string,
    /** `new Date(text)`: never throws; unreadable text gives the Invalid Date. */
    parseDate: string -> JsDate,
    /** `superjson.serialize`, then `superjson.stringify` of its `json` and of its
        `meta` part; serializing may throw (a `Date` inside the value is written
        with `toISOString`). */
    superjsonEncode: JsValue -> Result<(string, string)>,
    /** `superjson.parse` of both parts, then `superjson.deserialize`; parsing
        may throw. */
    superjsonDecode: (string, string) -> Result<JsValue>)

  /** superjson carries `j`: serializing it succeeds, both stringified parts are
      JSON texts, so neither is empty, and reading them back gives `j`. This
      holds value by value, not for every value. */
  predicate SuperjsonCarries(lib: Libraries, j: JsValue) {
    match lib.superjsonEncode(j)
    case Err(_) => false
    case Ok((json, meta)) => json != "" && meta != "" && lib.superjsonDecode(json, meta) == Ok(j)
  }

  /** The law the round trip relies on for every input: a date read back from its
      ISO text is the same date. */
  ghost predicate LibrariesLawful(lib: Libraries) {
    forall t: TimeValue :: lib.parseDate(lib.toIsoString(t)) == ValidTime(t)
  }

  // ---------------------------------------------------------------------------
  // integer: Number.prototype.toString() and parseInt(text, 10)

  /** `toString()` of an integral number or NaN: plain decimal with a leading
      minus sign for negative values. */
  function IntegerToString(n: JsInteger): (r: string)
    ensures n.NaN? <==> r == "NaN"
    ensures n.Int? && n.value >= 0 ==> AllDigits(r) && r != "" && (r[0] == '0' ==> r == "0")
    ensures n.Int? && n.value < 0 ==> |r| >= 2 && r[0] == '-' && AllDigits(r[1..]) && r[1] != '0'
  {
    match n
    case NaN => "NaN"
    case Int(i) =>
      var r := if i < 0 then "-" + Digits(-i) else Digits(i);
      assert r[0] != 'N';
      r
  }

  /** StrWhiteSpaceChar of ECMAScript: white space and line terminators. */
  predicate IsWhiteSpace(c: char) {
    || c == '\U{0009}' || c == '\U{000A}' || c == '\U{000B}' || c == '\U{000C}'
    || c == '\U{000D}' || c == '\U{0020}' || c == '\U{00A0}' || c == '\U{1680}'
    || '\U{2000}' <= c <= '\U{200A}'
    || c == '\U{2028}' || c == '\U{2029}' || c == '\U{202F}' || c == '\U{205F}'
    || c == '\U{3000}' || c == '\U{FEFF}'
  }

  predicate IsSign(c: char) {
    c == '+' || c == '-'
  }

  /** The text with its leading white space removed. */
  function TrimStart(s: string): (r: string)
    ensures |r| <= |s| && r == s[|s| - |r|..]
    ensures forall i :: 0 <= i < |s| - |r| ==> IsWhiteSpace(s[i])
    ensures r == [] || !IsWhiteSpace(r[0])
    decreases |s|
  {
    if s != [] && IsWhiteSpace(s[0]) then TrimStart(s[1..]) else s
  }

  /** The longest prefix of the text made of decimal digits. */
  function DigitPrefix(s: string): (r: string)
    ensures r <= s && AllDigits(r)
    ensures |r| < |s| ==> !IsDigit(s[|r|])
    decreases |s|
  {
    if s != [] && IsDigit(s[0]) then [s[0]] + DigitPrefix(s[1..]) else []
  }

  /** The text after its sign, if it starts with one. */
  function Unsigned(t: string): string {
    if t != [] && IsSign(t[0]) then t[1..] else t
  }

  /** `parseInt(text, 10)`: leading white space and one sign are skipped, then the
      longest run of digits is read; no digits gives NaN. */
  function ParseInt(s: string): (r: JsInteger)
    ensures r.NaN? <==> DigitPrefix(Unsigned(TrimStart(s))) == []
    ensures r.Int? && r.value < 0 ==> TrimStart(s)[0] == '-'
  {
    var t := TrimStart(s);
    var digits := DigitPrefix(Unsigned(t));
    if digits == [] then NaN
    else if t[0] == '-' then Int(0 - Decimal.Value(digits))
    else Int(Decimal.Value(digits))
  }

  lemma SignNotWhiteSpace(c: char)
    requires IsDigit(c) || IsSign(c)
    ensures !IsWhiteSpace(c)
  {
  }

  lemma {:induction false} TrimWhiteSpace(ws: string, s: string)
    requires forall i :: 0 <= i < |ws| ==> IsWhiteSpace(ws[i])
    requires s == [] || !IsWhiteSpace(s[0])
    ensures TrimStart(ws + s) == s
    decreases |ws|
  {
    if ws != [] {
      assert (ws + s)[1..] == ws[1..] + s;
      TrimWhiteSpace(ws[1..], s);
    }
  }

  lemma {:induction false} DigitPrefixOf(d: string, rest: string)
    requires AllDigits(d)
    requires rest == [] || !IsDigit(rest[0])
    ensures DigitPrefix(d + rest) == d
    decreases |d|
  {
    if d != [] {
      assert (d + rest)[1..] == d[1..] + rest;
      DigitPrefixOf(d[1..], rest);
    } else {
      assert d + rest == rest;
    }
  }

  /** `parseInt` skips leading white space. */
  lemma ParseIntSkipsWhiteSpace(ws: string, t: string)
    requires forall i :: 0 <= i < |ws| ==> IsWhiteSpace(ws[i])
    requires t == [] || !IsWhiteSpace(t[0])
    ensures ParseInt(ws + t) == ParseInt(t)
  {
    TrimWhiteSpace(ws, t);
    assert TrimStart(t) == t;
  }

  lemma ParseIntSigned(sign: string, d: string, rest: string)
    requires sign == "" || sign == "-" || sign == "+"
    requires d != "" && AllDigits(d)
    requires rest == [] || !IsDigit(rest[0])
    ensures ParseInt(sign + d + rest) == Int(if sign == "-" then 0 - Decimal.Value(d) else Decimal.Value(d))
  {
    var t := sign + d + rest;
    SignedDigits(sign, d, rest);
    assert t[0] == '-' <==> sign == "-" by {
      assert d[0] != '-';
    }
    ParseIntOfDigits(t, d);
  }

  lemma ParseIntOfDigits(t: string, d: string)
    requires d != [] && TrimStart(t) == t && DigitPrefix(Unsigned(t)) == d
    ensures ParseInt(t) == Int(if t[0] == '-' then 0 - Decimal.Value(d) else Decimal.Value(d))
  {
  }

  lemma SignedDigits(sign: string, d: string, rest: string)
    requires sign == "" || sign == "-" || sign == "+"
    requires d != "" && AllDigits(d)
    requires rest == [] || !IsDigit(rest[0])
    ensures TrimStart(sign + d + rest) == sign + d + rest
    ensures DigitPrefix(Unsigned(sign + d + rest)) == d
  {
    var t := sign + d + rest;
    SignNotWhiteSpace(t[0]);
    assert t == sign + (d + rest);
    UnsignedAfterSign(sign, d + rest);
    DigitPrefixOf(d, rest);
  }

  lemma UnsignedAfterSign(sign: string, u: string)
    requires sign == "" || sign == "-" || sign == "+"
    requires u == [] || !IsSign(u[0])
    ensures Unsigned(sign + u) == u
  {
    if sign != "" {
      assert (sign + u)[1..] == u;
    }
  }

  /** `parseInt` reads a decimal numeral: after any white space and an optional
      sign, it takes the digits up to the first character that is not one. */
  lemma ParseIntDecimal(ws: string, sign: string, d: string, rest: string)
    requires forall i :: 0 <= i < |ws| ==> IsWhiteSpace(ws[i])
    requires sign == "" || sign == "-" || sign == "+"
    requires d != "" && AllDigits(d)
    requires rest == [] || !IsDigit(rest[0])
    ensures ParseInt(ws + sign + d + rest) == Int(if sign == "-" then 0 - Decimal.Value(d) else Decimal.Value(d))
  {
    var t := sign + d + rest;
    assert ws + sign + d + rest == ws + t;
    SignNotWhiteSpace(t[0]);
    ParseIntSkipsWhiteSpace(ws, t);
    ParseIntSigned(sign, d, rest);
  }

  /** `parseInt` gives NaN, not an error, when no digit follows the white space
      and the optional sign: the empty text, for one. */
  lemma ParseIntNoDigits(ws: string, sign: string, rest: string)
    requires forall i :: 0 <= i < |ws| ==> IsWhiteSpace(ws[i])
    requires sign == "" || sign == "-" || sign == "+"
    requires rest == [] || (!IsDigit(rest[0]) && (sign != "" || (!IsWhiteSpace(rest[0]) && !IsSign(rest[0]))))
    ensures ParseInt(ws + sign + rest) == NaN
  {
    var t := sign + rest;
    assert ws + sign + rest == ws + t;
    assert t == [] || !IsWhiteSpace(t[0]) by {
      if sign != "" {
        SignNotWhiteSpace(t[0]);
      }
    }
    ParseIntSkipsWhiteSpace(ws, t);
    ParseIntSignedNoDigits(sign, rest);
  }

  lemma ParseIntSignedNoDigits(sign: string, rest: string)
    requires sign == "" || sign == "-" || sign == "+"
    requires rest == [] || (!IsDigit(rest[0]) && (sign != "" || (!IsWhiteSpace(rest[0]) && !IsSign(rest[0]))))
    ensures ParseInt(sign + rest) == NaN
  {
    var t := sign + rest;
    assert TrimStart(t) == t by {
      if sign != "" {
        SignNotWhiteSpace(t[0]);
      }
    }
    assert DigitPrefix(Unsigned(t)) == [] by {
      if sign != "" {
        assert t[1..] == rest;
      }
    }
  }

  /** The integer round trip: `parseInt(n.toString(), 10)` is `n`, NaN included. */
  lemma IntegerRoundTrip(n: JsInteger)
    ensures ParseInt(IntegerToString(n)) == n
  {
    match n
    case NaN =>
      assert ParseInt("NaN") == NaN by {
        ParseIntNoDigits("", "", "NaN");
      }
    case Int(i) =>
      var magnitude: nat := if i < 0 then -i else i;
      var sign := if i < 0 then "-" else "";
      assert IntegerToString(n) == "" + sign + Digits(magnitude) + "";
      ParseIntDecimal("", sign, Digits(magnitude), "");
      ValueOfDigits(magnitude);
  }

  // ---------------------------------------------------------------------------
  // boolean

  /** `Boolean.prototype.toString()`. */
  function BooleanToString(b: bool): (r: string)
    ensures r == "true" || r == "false"
    ensures r == "true" <==> b
  {
    if b then "true" else "false"
  }

  /** `str === "true"`: every other text, garbage included, reads as false. */
  function ParseBoolean(s: string): (r: bool)
    ensures r <==> s == BooleanToString(true)
  {
    s == "true"
  }

  lemma BooleanRoundTrip(b: bool)
    ensures ParseBoolean(BooleanToString(b)) == b
    ensures forall s :: ParseBoolean(s) ==> BooleanToString(true) == s
  {
  }

  // ---------------------------------------------------------------------------
  // json: `${json}:::::${meta}` and `str.split(":::::")`

  const Separator := ":::::"

  /** The separator starts at position `i`: five colons in a row. */
  predicate OccursAt(s: string, i: nat) {
    && i + |Separator| <= |s|
    && s[i] == ':' && s[i + 1] == ':' && s[i + 2] == ':' && s[i + 3] == ':' && s[i + 4] == ':'
  }

  predicate ContainsSeparator(s: string) {
    exists i :: 0 <= i < |s| && OccursAt(s, i)
  }

  /** `s.indexOf(":::::", from)`: the first occurrence at or after `from`. */
  function IndexOf(s: string, from: nat): (r: Option<nat>)
    ensures r.Some? ==> from <= r.value && OccursAt(s, r.value)
    ensures forall j: nat :: from <= j && (r.None? || j < r.value) ==> !OccursAt(s, j)
    decreases |s| - from
  {
    if from + |Separator| > |s| then None
    else if OccursAt(s, from) then Some(from)
    else IndexOf(s, from + 1)
  }

  /** The pieces joined back with the separator between them. */
  function Join(pieces: seq<string>): string
    decreases |pieces|
  {
    if pieces == [] then ""
    else if |pieces| == 1 then pieces[0]
    else pieces[0] + Separator + Join(pieces[1..])
  }

  lemma OccursInPrefix(s: string, i: nat, j: nat)
    requires i <= |s|
    requires OccursAt(s[..i], j)
    ensures OccursAt(s, j) && j + |Separator| <= i
  {
    assert s[..i][j..j + |Separator|] == s[j..j + |Separator|];
  }

  /** `s.split(":::::")`: the text cut at each occurrence of the separator, found
      from left to right without overlap. None of the pieces holds the
      separator, and they join back to the text (`SplitJoin`). */
  function Split(s: string): (pieces: seq<string>)
    ensures |pieces| >= 1
    ensures forall k :: 0 <= k < |pieces| ==> !ContainsSeparator(pieces[k])
    decreases |s|
  {
    match IndexOf(s, 0)
    case None => [s]
    case Some(i) =>
      var head, tail := s[..i], Split(s[i + |Separator|..]);
      assert !ContainsSeparator(head) by {
        forall j: nat | OccursAt(head, j) ensures false {
          OccursInPrefix(s, i, j);
        }
      }
      [head] + tail
  }

  /** Joining the pieces with the separator gives the text back. */
  lemma {:induction false} SplitJoin(s: string)
    ensures Join(Split(s)) == s
    decreases |s|
  {
    match IndexOf(s, 0)
    case None =>
    case Some(i) =>
      var rest := s[i + |Separator|..];
      SplitJoin(rest);
      assert Split(s) == [s[..i]] + Split(rest);
      assert s == s[..i] + Separator + rest;
  }

  const InvalidJsonMessage := "Invalid JSON string"

  /** `const [json, meta] = str.split(":::::")` and the `!json || !meta` guard:
      the first two pieces, when both exist and are non-empty. A third piece and
      anything after it is ignored. */
  function SplitJson(s: string): (r: Option<(string, string)>)
    ensures r.Some? ==>
      && r.value.0 != "" && r.value.1 != ""
      && !ContainsSeparator(r.value.0) && !ContainsSeparator(r.value.1)
      && r.value.0 + Separator + r.value.1 <= s
    ensures !ContainsSeparator(s) ==> r.None?
  {
    var pieces := Split(s);
    if pieces[0] == "" || |pieces| < 2 || pieces[1] == "" then None
    else
      assert s == pieces[0] + Separator + Join(pieces[1..]) by {
        SplitJoin(s);
      }
      assert |pieces[1..]| == 1 || Join(pieces[1..]) == pieces[1] + Separator + Join(pieces[2..]);
      Some((pieces[0], pieces[1]))
  }

  /** `split` cuts at the leftmost occurrence of the separator and splits the
      rest the same way; with no occurrence the text is the only piece. Together
      with the function's own contract this fixes every piece. */
  lemma SplitCutsAtFirst(s: string)
    ensures |Split(s)| == 1 <==> IndexOf(s, 0).None?
    ensures |Split(s)| >= 2 ==>
      && IndexOf(s, 0) == Some(|Split(s)[0]|)
      && Split(s)[1..] == Split(s[|Split(s)[0]| + |Separator|..])
  {
    match IndexOf(s, 0)
    case None =>
    case Some(i) =>
      assert Split(s)[1..] == Split(s[i + |Separator|..]);
  }

  /** The guard's two pieces are cut at the first occurrence of the separator and
      at the next one after it (or at the end of the text). */
  lemma SplitJsonCuts(s: string)
    requires SplitJson(s).Some?
    ensures IndexOf(s, 0) == Some(|SplitJson(s).value.0|)
    ensures
      var from := |SplitJson(s).value.0| + |Separator|;
      var end := from + |SplitJson(s).value.1|;
      IndexOf(s, from) == if end == |s| then None else Some(end)
  {
    assert SplitJson(s).value.0 == Split(s)[0] && SplitJson(s).value.1 == Split(s)[1];
    assert IndexOf(s, 0) == Some(|Split(s)[0]|) by {
      SplitCutsAtFirst(s);
    }
    SecondPieceCut(s);
  }

  /** The second piece of a split ends at the next occurrence of the separator,
      or at the end of the text. */
  lemma SecondPieceCut(s: string)
    requires |Split(s)| >= 2
    ensures
      var from := |Split(s)[0]| + |Separator|;
      var end := from + |Split(s)[1]|;
      IndexOf(s, from) == if end == |s| then None else Some(end)
  {
    SecondPieceFirst(s);
    SecondCut(s, |Split(s)[0]| + |Separator|, |Split(s)[1]|);
  }

  /** The second piece is the first piece of what follows the first cut. */
  lemma SecondPieceFirst(s: string)
    requires |Split(s)| >= 2
    ensures
      var from, len := |Split(s)[0]| + |Separator|, |Split(s)[1]|;
      && from <= |s|
      && IndexOf(s[from..], 0) == if len == |s| - from then None else Some(len)
  {
    var from := |Split(s)[0]| + |Separator|;
    assert from <= |s| && Split(s)[1] == Split(s[from..])[0] by {
      SplitCutsAtFirst(s);
    }
    FirstCut(s[from..]);
  }

  /** The first occurrence after position `from` is the first occurrence in the
      text that starts there, moved back by `from`. */
  lemma SecondCut(s: string, from: nat, len: nat)
    requires from <= |s|
    requires IndexOf(s[from..], 0) == if len == |s| - from then None else Some(len)
    ensures IndexOf(s, from) == if from + len == |s| then None else Some(from + len)
  {
    var found, shifted := IndexOf(s, from), IndexOf(s[from..], 0);
    assert shifted == if found.Some? then Some(found.value - from) else None by {
      IndexOfShift(s, from, 0);
    }
    ShiftBack(found, shifted, from, len, |s| - from);
  }

  lemma ShiftBack(found: Option<nat>, shifted: Option<nat>, from: nat, len: nat, n: nat)
    requires found.Some? ==> from <= found.value
    requires shifted == if found.Some? then Some(found.value - from) else None
    requires shifted == if len == n then None else Some(len)
    ensures found == if from + len == from + n then None else Some(from + len)
  {
  }

  /** The first piece ends at the first occurrence of the separator, or at the
      end of the text. */
  lemma FirstCut(t: string)
    ensures IndexOf(t, 0) == if |Split(t)[0]| == |t| then None else Some(|Split(t)[0]|)
  {
    match IndexOf(t, 0)
    case None =>
    case Some(i) =>
      assert Split(t)[0] == t[..i];
  }

  /** Searching a suffix is searching the whole text from further on. */
  lemma {:induction false} IndexOfShift(s: string, i: nat, from: nat)
    requires i <= |s|
    ensures IndexOf(s[i..], from) ==
      if IndexOf(s, i + from).Some? then Some(IndexOf(s, i + from).value - i) else None
    decreases |s| - i - from
  {
    if i + from + |Separator| <= |s| {
      OccursInSuffix(s, i, from);
      if !OccursAt(s, i + from) {
        IndexOfShift(s, i, from + 1);
      }
    }
  }

  lemma OccursInSuffix(s: string, i: nat, j: nat)
    requires i <= |s|
    ensures OccursAt(s[i..], j) <==> OccursAt(s, i + j)
  {
    if i + j + |Separator| <= |s| {
      assert s[i..][j..j + |Separator|] == s[i + j..i + j + |Separator|];
    }
  }

  /** The first piece of a split is empty exactly when the text is empty or
      starts with the separator. */
  lemma FirstPieceEmpty(s: string)
    ensures Split(s)[0] == "" <==> s == "" || OccursAt(s, 0)
  {
    match IndexOf(s, 0)
    case None =>
    case Some(i) =>
      assert Split(s)[0] == s[..i];
  }

  lemma RestEmpty(s: string, i: nat)
    requires i <= |s|
    ensures Split(s[i..])[0] == "" <==> i == |s| || OccursAt(s, i)
  {
    FirstPieceEmpty(s[i..]);
    OccursInSuffix(s, i, 0);
  }

  /** The three ways the guard throws, and no others: no separator, an empty first
      piece (the text starts with the separator), or an empty second piece (the
      first separator ends the text or is directly followed by another). */
  lemma SplitJsonFails(s: string)
    ensures SplitJson(s).None? <==>
      match IndexOf(s, 0)
      case None => true
      case Some(i) => i == 0 || i + |Separator| == |s| || OccursAt(s, i + |Separator|)
  {
    var pieces := Split(s);
    assert SplitJson(s).None? <==> pieces[0] == "" || |pieces| < 2 || pieces[1] == "";
    match IndexOf(s, 0)
    case None =>
    case Some(i) =>
      var rest := s[i + |Separator|..];
      assert pieces == [s[..i]] + Split(rest);
      assert |pieces[0]| == i;
      assert pieces[1] == Split(rest)[0];
      RestEmpty(s, i + |Separator|);
  }

  /** The json framing round trip: when neither stringified part holds the
      separator, both are non-empty and the first does not end with a colon, the
      split gives both parts back. */
  lemma SplitJsonJoin(json: string, meta: string)
    requires json != "" && meta != ""
    requires !ContainsSeparator(json) && !ContainsSeparator(meta)
    requires json[|json| - 1] != ':'
    ensures SplitJson(json + Separator + meta) == Some((json, meta))
  {
    var s := json + Separator + meta;
    var n := |json|;
    assert OccursAt(s, n) by {
      assert s[n..n + |Separator|] == Separator;
    }
    forall j: nat | j < n
      ensures !OccursAt(s, j)
    {
      if OccursAt(s, j) && j + |Separator| <= n {
        assert OccursAt(json, j);
      }
    }
    var first := IndexOf(s, 0);
    assert first == Some(n);
    assert s[n + |Separator|..] == meta;
    assert IndexOf(meta, 0).None?;
    assert s[..n] == json;
    assert Split(s) == [json] + Split(meta);
    assert Split(meta) == [meta];
  }

  /** The condition on the first part cannot be dropped, for any input: a
      trailing colon and the separator after it make an earlier occurrence, so the
      first part never comes back intact. */
  lemma TrailingColonBreaksFrame(json: string, meta: string)
    requires json != "" && json[|json| - 1] == ':'
    ensures SplitJson(json + Separator + meta) != Some((json, meta))
  {
    var s := json + Separator + meta;
    var n := |json|;
    assert OccursAt(s, n - 1) by {
      assert s[n - 1] == ':' && s[n] == ':' && s[n + 1] == ':' && s[n + 2] == ':' && s[n + 3] == ':';
    }
    if SplitJson(s).Some? {
      SplitJsonCuts(s);
      assert |SplitJson(s).value.0| <= n - 1;
    }
  }

  /** For example, one trailing colon moves into the second part. */
  lemma TrailingColonMovesIntoMeta()
    ensures SplitJson("a:" + Separator + "b") == Some(("a", ":b"))
  {
    var s := "a:" + Separator + "b";
    assert OccursAt(s, 1);
    assert s[0] == 'a';
    assert IndexOf(s, 0) == Some(1);
    assert s[..1] == "a" && s[6..] == ":b";
    assert IndexOf(":b", 0) == None;
    assert Split(":b") == [":b"];
    assert Split(s) == ["a", ":b"];
  }

  /** The framing cannot carry a json part that itself holds the separator, as the
      stringified form of a string field containing five colons does: the split
      never hands that part back to superjson. */
  lemma SeparatorInJsonBreaksFrame(json: string, meta: string)
    requires ContainsSeparator(json)
    ensures SplitJson(json + Separator + meta) != Some((json, meta))
  {
  }

  // ---------------------------------------------------------------------------
  // date

  const InvalidTimeMessage := "Invalid time value"

  /** `toISOString()`: a RangeError for the Invalid Date. */
  function DateToIsoString(lib: Libraries, d: JsDate): (r: Result<string>)
    ensures r.Err? <==> d.InvalidDate?
    ensures r.Err? ==> r.message == InvalidTimeMessage
  {
    match d
    case InvalidDate => Err(InvalidTimeMessage)
    case ValidTime(t) => Ok(lib.toIsoString(t))
  }

  // ---------------------------------------------------------------------------
  // dataToString and stringToData

  /** `dataToString`. The only failures are `toISOString` on the Invalid Date and
      a json value superjson cannot serialize; text and varchar values pass
      through unchanged and booleans become "true" or "false". */
  function DataToString(lib: Libraries, v: Value): (r: Result<string>)
    ensures r.Err? <==> v == DateValue(InvalidDate) || (v.JsonValue? && lib.superjsonEncode(v.json).Err?)
    ensures v == DateValue(InvalidDate) ==> r == Err(InvalidTimeMessage)
    ensures v.JsonValue? && r.Err? ==> r == Err(lib.superjsonEncode(v.json).message)
    ensures v.TextValue? ==> r == Ok(v.text)
    ensures v.VarcharValue? ==> r == Ok(v.varchar)
    ensures v.BooleanValue? ==> r.Ok? && (r.value == "true" <==> v.boolean) && (r.value == "true" || r.value == "false")
    ensures v.JsonValue? && r.Ok? ==> ContainsSeparator(r.value)
    ensures v.JsonValue? && lib.superjsonEncode(v.json).Ok? ==>
      r == Ok(lib.superjsonEncode(v.json).value.0 + Separator + lib.superjsonEncode(v.json).value.1)
    ensures v.IntegerValue? ==> r == Ok(IntegerToString(v.integer))
    ensures v.NumberValue? ==> r == Ok(lib.numberToString(v.number))
    ensures v.DateValue? && v.date.ValidTime? ==> r == Ok(lib.toIsoString(v.date.time))
  {
    match v
    case IntegerValue(n) => Ok(IntegerToString(n))
    case NumberValue(x) => Ok(lib.numberToString(x))
    case BooleanValue(b) => Ok(BooleanToString(b))
    case TextValue(s) => Ok(s)
    case VarcharValue(s) => Ok(s)
    case JsonValue(j) =>
      (match lib.superjsonEncode(j)
       case Err(m) => Err(m)
       case Ok((json, meta)) =>
         assert OccursAt(json + Separator + meta, |json|) by {
           assert (json + Separator + meta)[|json|..|json| + |Separator|] == Separator;
         }
         Ok(json + Separator + meta))
    case DateValue(d) => DateToIsoString(lib, d)
  }

  /** The json branch of `stringToData`: split the text, then let superjson
      parse and deserialize both parts. */
  function ParseJson(lib: Libraries, s: string): (r: Result<JsValue>)
    ensures SplitJson(s).None? ==> r == Err(InvalidJsonMessage)
    ensures SplitJson(s).Some? ==> r == lib.superjsonDecode(SplitJson(s).value.0, SplitJson(s).value.1)
  {
    match SplitJson(s)
    case None => Err(InvalidJsonMessage)
    case Some((json, meta)) => lib.superjsonDecode(json, meta)
  }

  /** The json branch of `stringToData` as a column value. */
  function JsonColumnValue(lib: Libraries, s: string): (r: Result<Value>)
    ensures r.Ok? ==> r.value.JsonValue?
    ensures SplitJson(s).None? ==> r == Err(InvalidJsonMessage)
    ensures ParseJson(lib, s).Ok? ==> r == Ok(JsonValue(ParseJson(lib, s).value))
    ensures ParseJson(lib, s).Err? ==> r == Err(ParseJson(lib, s).message)
  {
    match ParseJson(lib, s)
    case Err(m) => Err(m)
    case Ok(j) => Ok(JsonValue(j))
  }

  /** `stringToData`. It yields a value of the requested column type; only the
      json type can fail, and it fails with "Invalid JSON string" whenever the
      split guard rejects the text. */
  function StringToData(lib: Libraries, s: string, t: ColumnType): (r: Result<Value>)
    ensures r.Ok? ==> TypeOf(r.value) == t
    ensures r.Err? ==> t == Json
    ensures t == Json && SplitJson(s).None? ==> r == Err(InvalidJsonMessage)
    ensures t == Text ==> r == Ok(TextValue(s))
    ensures t == Varchar ==> r == Ok(VarcharValue(s))
    ensures t == Integer ==> r == Ok(IntegerValue(ParseInt(s)))
    ensures t == Boolean ==> r == Ok(BooleanValue(s == "true"))
    ensures t == Number ==> r == Ok(NumberValue(lib.parseFloat(s)))
    ensures t == Date ==> r == Ok(DateValue(lib.parseDate(s)))
    ensures t == Json ==> r == JsonColumnValue(lib, s)
  {
    match t
    case Integer => Ok(IntegerValue(ParseInt(s)))
    case Number => Ok(NumberValue(lib.parseFloat(s)))
    case Boolean => Ok(BooleanValue(ParseBoolean(s)))
    case Text => Ok(TextValue(s))
    case Varchar => Ok(VarcharValue(s))
    case Json => JsonColumnValue(lib, s)
    case Date => Ok(DateValue(lib.parseDate(s)))
  }

  /** The values whose text form reads back as the same value: an integer a
      JavaScript number holds exactly, a number that `parseFloat` reads back from
      its own `toString`, a json value superjson carries and whose two stringified
      parts can be split apart again, and a valid date. */
  predicate Representable(lib: Libraries, v: Value) {
    match v
    case IntegerValue(n) => n.Int? ==> -MaxExactInteger <= n.value <= MaxExactInteger
    case NumberValue(x) => lib.parseFloat(lib.numberToString(x)) == x
    case JsonValue(j) =>
      && SuperjsonCarries(lib, j)
      && var (json, meta) := lib.superjsonEncode(j).value;
         && !ContainsSeparator(json) && !ContainsSeparator(meta)
         && json[|json| - 1] != ':'
    case DateValue(d) => d.ValidTime?
    case _ => true
  }

  /** The serializer round trip: every representable value is rendered without
      error, and reading the text back as the value's own column type gives the
      value. */
  lemma SerializeRoundTrip(lib: Libraries, v: Value)
    requires LibrariesLawful(lib)
    requires Representable(lib, v)
    ensures DataToString(lib, v).Ok?
    ensures StringToData(lib, DataToString(lib, v).value, TypeOf(v)) == Ok(v)
  {
    match v
    case IntegerValue(n) => IntegerRoundTrip(n);
    case BooleanValue(b) => BooleanRoundTrip(b);
    case JsonValue(j) =>
      var (json, meta) := lib.superjsonEncode(j).value;
      SplitJsonJoin(json, meta);
    case _ =>
  }
}

=== FILE: wrappers.dfy ===
/** Failure-carrying values shared by every module of the codec model. */
module Wrappers {

  /** A value that may be absent, like an unset environment variable. */
  datatype Option<+T> = None | Some(value: T)

  /** The outcome of an operation that may throw: `Err` carries the message of the
      JavaScript `Error` that would have been thrown. */
  datatype Result<+T> = Ok(value: T) | Err(message: string)
}
